=== FILE: README.md ===
# proxy-state, modelled in Dafny

`proxy-state` is a small observable store for React. `createStore(initObj)` wraps
a plain object in a `Proxy`. Its `set` trap writes the property with
`Reflect.set` and then emits one `"stateChange"` event `{ prop, value }` on a
module-level event emitter. Its `get` trap reads the target. The `subscribe`
function that `createStore` returns registers a callback on that same emitter
and returns a closure that removes it. The `useStoreState(selector)` hook
starts from `selector(store)`. On each event it applies the selector to the
one-entry object `{ [prop]: value }` and calls `setState` when the result
differs from its local state.

The model is a functional state machine.

- `objects.dfy` (`Objects`): property keys, JavaScript values, and plain
  objects with their non-writable keys. It also defines `Reflect.get` and
  `Reflect.set`.
- `emitter.dfy` (`Emitter`): the shared emitter as a sequence of callback
  identities. `on` appends to it. `removeListener` drops the most recent
  matching registration. `emit` yields one delivery per registration, in
  order.
- `proxy.dfy` (`Proxy`): a world of a heap of objects plus the global
  listener sequence. A store is a reference to its target object, so
  `createStore` copies nothing. Each operation is a pure step that returns
  the new world, the caller's reply and the list of listener calls it made.
  `Run` chains steps. Each listener call carries the heap as the listener
  would find it, which shows that the write is committed before the emit.
- `hook.dfy` (`Hook`): the hook's event rule as the source writes it, the
  counter scenario of `tests/index.test.tsx`, and a corrected rule (see
  Findings).

Opaque collaborators become parameters. A callback is a natural number
standing for a function's identity. A selector is a Dafny function from
objects to values. The hook's current local state is passed in explicitly.

## Model

| member | source | states |
|---|---|---|
| Objects.ReflectSet | src/index.tsx:13 | The write fails exactly when the property is non-writable, and the object is then unchanged. Otherwise the key reads back the new value. Every other key reads as before. |
| Emitter.On | src/index.tsx:29 | Subscribing appends a registration even when the callback is already registered. Earlier registrations keep their order, and only that callback's count grows. |
| Emitter.LastIndexOf | src/index.tsx:30 | Finds the most recent registration of a callback, and finds nothing exactly when the callback is not registered. |
| Emitter.RemoveListener | src/index.tsx:30 | Removes exactly one registration, the last one, and keeps the rest in order. An unregistered callback leaves the list as it was. Other callbacks' counts are unchanged. |
| Emitter.Emit | src/index.tsx:14 | One emit makes one delivery per registration, in registration order, all carrying the same payload. |
| Emitter.EmitDeliversOncePerRegistration | src/index.tsx:14 | A callback registered n times is called exactly n times by one emit. |
| Emitter.RemoveUndoesOn | src/index.tsx:28-31 | Calling the closure right after subscribing restores the listener list exactly. |
| Emitter.RemoveAfterDoubleOnKeepsOne | src/index.tsx:28-31 | A callback subscribed twice is still registered after one unsubscribe, because removal is per registration. |
| Proxy.SetTrap | src/index.tsx:7-17 | The trap always reports true and does not touch the listener list. The write lands unless the key is non-writable. Every other object is unchanged. On the written object, every other key reads as before, no property changes writability, and well-formedness is kept. Exactly one `{prop, value}` event goes to every registration, each seeing the post-write heap. |
| Proxy.GetTrap | src/index.tsx:18-20 | A read returns the target's own property or undefined. It leaves the world unchanged and calls no listener. |
| Proxy.SubscribeStep | src/index.tsx:28-29 | Subscribing appends one registration of the callback at the end of the list, with no cap. Earlier registrations keep their order, so the next emit calls them first. It leaves the heap alone and calls no listener. |
| Proxy.UnsubscribeStep | src/index.tsx:30 | The returned closure removes the most recent registration of its callback and keeps the others in order. With no registration it leaves the list as it was. The heap is unchanged, no listener is called, and the reply carries nothing. |
| Proxy.Apply | src/index.tsx:23-34 | `createStore` changes no state and returns a store over the object it was given. Only writes call listeners. Only an object literal grows the heap, by exactly that one object. Writes and reads leave the heap's size and the listener list alone. |
| Proxy.ReadAfterWrite | src/index.tsx:13-20 | After a write, reading the same key through any store over the same object yields the value, unless the key is non-writable. Every other key of every object reads as before. |
| Proxy.RewriteStillNotifies | src/index.tsx:13-14 | Writing the value a key already holds still calls every registration. There is no change detection. |
| Proxy.CrossStoreDelivery | src/index.tsx:3-14 | A callback subscribed through one store's `subscribe` is called by a write to any other store, once per registration. |
| Proxy.SilentWhileUnregistered | src/index.tsx:28-31 | Over any run of operations, a callback that is not registered and never subscribed is never called. |
| Proxy.UnsubscribeStopsDelivery | src/index.tsx:28-31 | After the closure of a single subscription runs, later operations on any store never call that callback. All other registrations keep their counts. |
| Hook.EventObject | src/index.tsx:47 | `{[prop]: value}` holds the event's value under its property and reads undefined for every other key. |
| Hook.InitialCountReadsThroughProxy | src/index.tsx:41 | The initial state `selector(store)` of `store => store.count` is what reading `count` through the get trap yields. |
| Hook.OnEvent | src/index.tsx:45-51 | After an event, local state equals the selector's value on the one-entry object whether or not `setState` ran. `setState` runs exactly when that value differs from the current state. |
| Hook.OnEventSettles | src/index.tsx:49-51 | Handling the same event again does not call `setState`. |
| Hook.Handle | src/index.tsx:45-51 | With a re-render between calls, the last call addressed to the hook's listener decides its state: the selector's value on that call's one-entry object. With no such call the state is unchanged. |
| Hook.HandleCaptured | src/index.tsx:41-56 | Within one batch, each call compares with the state captured at subscription, and every call whose selection differs runs `setState`. The last such call decides the state. With none, the state is unchanged. |
| Hook.HandleCapturedAgreesWhenAllDiffer | src/index.tsx:41-56 | When every call to the listener selects something other than the captured state, the captured rule and the re-render rule end in the same state. |
| Hook.HandleCapturedOneCall | src/index.tsx:45-51 | For a single call, comparing with the captured state and comparing with the latest state agree. |
| Hook.HandleIgnoresOthers | src/index.tsx:45-51 | Calls addressed to other listeners leave the hook's state unchanged. |
| Hook.HandleAfterWrite | src/index.tsx:45-51 | After any write, a registered hook holds the selector's value on that write's one-entry object, whatever it held before. |
| Hook.CounterScenario | tests/index.test.tsx:21-35 | The store `{count: 0}` renders 0, and `store.count += 1` reads 0 and writes 1. The hook's listener is called once with `{count, 1}` and then holds 1. After unsubscribing, a write calls no one. |
| Hook.OtherStoreWriteOverridesSelection | src/index.tsx:3-51 | Writing `count` on a second store sets the selection of a hook on the module-level store to that value, though that store did not change. |
| Hook.UnrelatedWriteClearsSelection | src/index.tsx:45-51 | As written, writing another key of the hook's own store turns the selection of `store => store.count` into undefined while `count` is still 0. |
| Hook.BatchedWritesLeaveStaleState | src/index.tsx:41-56 | In one batch, `store.count = 1; store.count = 0;` leaves the hook at 1 while the store holds 0. With a re-render between calls, or under the corrected rule, it ends at 0. |
| Hook.OnEventFromStore | src/index.tsx:45-51 | Corrected rule: after an event, local state is the selector's value on the hook's own store as seen during the call. `setState` runs only when that differs from the current state. A view without the store changes nothing. |
| Hook.HandleFromStore | src/index.tsx:45-51 | Corrected rule over many calls, each comparing with the latest state: the last call to the listener decides the state, as the selection on the store that call sees. |
| Hook.CorrectedHookTracksStore | src/index.tsx:39-56 | With the corrected rule, a hook whose listener stays registered holds `selector(store)` after every operation of any run, whatever store or key is written. |
| Hook.CorrectedRuleKeepsSelection | src/index.tsx:45-51 | With the corrected rule, an unrelated key or another store's `count` leaves the selection of `count` at 0. |

## Findings

| source | as written | input that shows it | evidently intended | confidence | as-written member | corrected member |
|---|---|---|---|---|---|---|
| src/index.tsx:47 | The listener applies the selector to `{ [prop]: value }`, which holds only the written property. | Store `{count: 0}`, hook with `store => store.count`, then `store.label = "x"`. The hook's state becomes undefined while `store.count` is still 0. | The hook's state should follow the selector's value on the store itself. The comment at line 46 says the selector decides whether the change is relevant. The corrected rule also compares with the latest state (next row). The same line also makes a selector that reads a nested path (`s => s.user.name`) throw on any event for another key. The write has then committed, but the listener's error escapes the emit and the set trap, and later listeners are not called. That case is not modelled (see Left out). | medium, not executed | Hook.UnrelatedWriteClearsSelection | Hook.CorrectedHookTracksStore |
| src/index.tsx:49 | The listener compares with the `state` captured when `useEffect` subscribed it (lines 41, 56). Later calls in the same batch compare with that stale value. | Hook with `store => store.count` on `{count: 0}`. One handler runs `store.count = 1; store.count = 0;`. The first call sets 1. The second compares 0 with the captured 0 and skips `setState`, so the hook shows 1 while the store holds 0. | Each call should compare with the hook's latest state. | medium, not executed | Hook.BatchedWritesLeaveStaleState | Hook.CorrectedHookTracksStore |

The same rule, combined with the emitter that all stores share, lets a write of
`count` to any other store overwrite the hook's state
(`Hook.OtherStoreWriteOverridesSelection`). The corrected rule fixes this too
(`Hook.CorrectedRuleKeepsSelection`). `Hook.OnEvent`, `Hook.Handle` and
`Hook.HandleCaptured` remain the model of the code as written. The corrected
rule is `Hook.HandleFromStore`: it selects from the store and compares with
the latest state, which answers both rows. `Hook.CorrectedHookTracksStore`
proves it.

## Left out

- React machinery: `useState` and `useEffect` scheduling, re-subscription when `[state, selector]` change, rendering and unmounting. The hook's current state is a parameter. Re-subscription also moves the hook's listener to the end of the list; this is not modelled.
- Hook.Handle: assumes React re-renders and re-subscribes the listener between any two calls, so each call compares with the latest state. Within one batch the source compares with the captured state instead. `Hook.HandleCaptured` models that case, and `Hook.BatchedWritesLeaveStaleState` shows the two differ.
- Hook.OnEventSettles: `Hook.Selector` is a pure function returning a primitive or an existing reference. A selector that builds a new object (`s => s` on the one-entry object, or `s => ({count: s.count})`) returns a new identity on every call. The source's line 49 is then always true, so `setState` runs on every event, and this lemma and `Hook.OnEvent`'s equality comparison do not cover such selectors.
- Objects.Target: no operation of the model creates a non-writable property, so every object reached from `Proxy.Initial` through `Proxy.Run` is fully writable. `readOnly` stands for objects prepared by code outside the model; `Objects.WellFormed` (non-writable keys are existing properties) is kept by `Objects.ReflectSet` but not required.
- The `console.log` calls at lines 9 and 24. They are output only.
- Node's `events` module beyond what the stores rely on. Modelled: `on` appends, `removeListener` drops the most recent matching registration, `emit` calls the registrations held when it starts, synchronously and in order. The event name is always `"stateChange"`, so it is not carried.
- Re-entrancy: listeners that write to a store while being called. A listener is an identity, and what it does besides the hook's rule is not modelled.
- Symbol keys, prototype-chain reads, accessor properties and non-extensible targets.
- Arrays and other exotic targets: `Objects.Target` is a plain object, so `createStore([])` is not modelled. On an array, `store[0] = 1` also changes `length`, which `Proxy.SetTrap`'s "every other key reads as before" does not allow.
- Proxy.SetTrap: the engine's invariant check, which throws a TypeError when the trap reports success for a non-writable, non-configurable property, is not modelled. Non-writable properties are treated as configurable, where `Reflect.set` fails quietly.
- Numbers are unbounded integers. Floating point, including `NaN !== NaN`, is not modelled.
- `createStore` on a non-object argument, where `new Proxy` throws. Stores only ever refer to allocated objects.
- `createStore(store)` on an existing store. That builds a proxy over a proxy, so every write runs both `set` traps and emits two `"stateChange"` events. The model's `CreateStore` operation takes a reference to a plain object, so this nesting is not modelled.
- `subscribe(x)` with an `x` that is not a function. Node's `on` throws then (line 29). A callback in the model is always a function's identity.
- Hook.OnEvent: `Hook.Selector` is a total function on one object with no heap behind it, so selectors that throw or read nested objects are not modelled. With `s => s.user.name`, an event for any other key makes line 47 read `undefined.name` and throw. The error escapes `emit` (line 14) and the `set` trap, after `Reflect.set` has committed the write. The caller's assignment then throws, and listeners registered after the hook are not called. `Proxy.SetTrap` always replies true and delivers to every registration, so it does not cover this case either. Function-valued selections are not modelled either: a function is only an `ObjRef`. React runs a function passed to `setState` (line 50) as an updater and one passed to `useState` (line 41) as an initializer. So with `s => s.onClick` and a function written to `onClick`, the source's state becomes `fn(prev)`, not the selection that `Hook.OnEvent` stores.
- `tests/index.test.ts` exercises a proxy defined inside that test, not repository code.

=== FILE: emitter.dfy ===
/** The one module-level event emitter every store shares, reduced to the
    behaviour the stores rely on: `on` appends a registration, `removeListener`
    drops one, and `emit` calls every registration synchronously, in
    registration order. The emitter's listener cap is raised to the largest
    safe integer, so registration never fails and never warns. */
module Emitter {

  /** The identity of a listener function. Two registrations of the same
      function value carry the same callback; distinct closures differ. */
  type Callback = nat

  datatype Option<T> = None | Some(value: T)

  /** One synchronous call of `listener` with `payload`. */
  datatype Delivery<P> = Delivery(listener: Callback, payload: P)

  /** How many times `cb` is registered. */
  function Count(reg: seq<Callback>, cb: Callback): nat
  {
    multiset(reg)[cb]
  }

  /** `on(event, cb)`: a new registration at the end, even when `cb` is
      already registered. */
  function On(reg: seq<Callback>, cb: Callback): (r: seq<Callback>)
    ensures |r| == |reg| + 1 && r[..|reg|] == reg && r[|reg|] == cb
    ensures Count(r, cb) == Count(reg, cb) + 1
    ensures forall d :: d != cb ==> Count(r, d) == Count(reg, d)
  {
    reg + [cb]
  }

  /** The position of the most recent registration of `cb`, if any. */
  function LastIndexOf(reg: seq<Callback>, cb: Callback): (r: Option<nat>)
    ensures r.None? <==> cb !in reg
    ensures r.Some? ==> r.value < |reg| && reg[r.value] == cb
    ensures r.Some? ==> cb !in reg[r.value + 1..]
  {
    if |reg| == 0 then None
    else if reg[|reg| - 1] == cb then Some(|reg| - 1)
    else
      var r := LastIndexOf(reg[..|reg| - 1], cb);
      assert reg == reg[..|reg| - 1] + [reg[|reg| - 1]];
      r
  }

  /** `removeListener(event, cb)`: drops the most recent registration of `cb`
      and keeps the others in order; a callback that is not registered
      leaves the registry as it was. */
  function RemoveListener(reg: seq<Callback>, cb: Callback): (r: seq<Callback>)
    ensures cb !in reg ==> r == reg
    ensures cb in reg ==> |r| == |reg| - 1
    ensures cb in reg ==>
      exists i :: 0 <= i < |reg| && reg[i] == cb && cb !in reg[i + 1..] && r == reg[..i] + reg[i + 1..]
    ensures Count(r, cb) == if cb in reg then Count(reg, cb) - 1 else 0
    ensures forall d :: d != cb ==> Count(r, d) == Count(reg, d)
  {
    match LastIndexOf(reg, cb)
    case None => reg
    case Some(i) =>
      assert reg == reg[..i] + [reg[i]] + reg[i + 1..];
      reg[..i] + reg[i + 1..]
  }

  /** `emit(event, payload)`: one delivery per registration held when the
      emit starts, in registration order. */
  function Emit<P>(reg: seq<Callback>, p: P): (ds: seq<Delivery<P>>)
    ensures |ds| == |reg|
    ensures forall i :: 0 <= i < |ds| ==> ds[i].listener == reg[i] && ds[i].payload == p
  {
    seq(|reg|, i requires 0 <= i < |reg| => Delivery(reg[i], p))
  }

  /** How many of the deliveries call `cb`. */
  function DeliveriesTo<P>(ds: seq<Delivery<P>>, cb: Callback): nat
    decreases |ds|
  {
    if |ds| == 0 then 0
    else (if ds[0].listener == cb then 1 else 0) + DeliveriesTo(ds[1..], cb)
  }

  lemma {:induction false} DeliveriesToAppend<P>(a: seq<Delivery<P>>, b: seq<Delivery<P>>, cb: Callback)
    ensures DeliveriesTo(a + b, cb) == DeliveriesTo(a, cb) + DeliveriesTo(b, cb)
    decreases |a|
  {
    if |a| == 0 {
      assert a + b == b;
    } else {
      assert (a + b)[1..] == a[1..] + b;
      DeliveriesToAppend(a[1..], b, cb);
    }
  }

  /** A callback is called by one emit exactly as many times as it is
      registered: never skipped, and never called twice for one registration. */
  lemma {:induction false} EmitDeliversOncePerRegistration<P>(reg: seq<Callback>, p: P, cb: Callback)
    ensures DeliveriesTo(Emit(reg, p), cb) == Count(reg, cb)
    decreases |reg|
  {
    if |reg| == 0 {
    } else {
      var front := reg[..|reg| - 1];
      assert reg == front + [reg[|reg| - 1]];
      assert Emit(reg, p) == Emit(front, p) + [Delivery(reg[|reg| - 1], p)];
      DeliveriesToAppend(Emit(front, p), [Delivery(reg[|reg| - 1], p)], cb);
      EmitDeliversOncePerRegistration(front, p, cb);
    }
  }

  /** Removing a registration right after adding it restores the registry:
      the closure `subscribe` hands out undoes that subscription. */
  lemma RemoveUndoesOn(reg: seq<Callback>, cb: Callback)
    ensures RemoveListener(On(reg, cb), cb) == reg
  {
    assert (reg + [cb])[..|reg|] == reg;
  }

  /** Adding then removing a callback that was already registered twice
      leaves it registered: removal is per registration, not per callback. */
  lemma {:induction false} RemoveAfterDoubleOnKeepsOne(reg: seq<Callback>, cb: Callback)
    requires cb !in reg
    ensures Count(RemoveListener(On(On(reg, cb), cb), cb), cb) == 1
    ensures cb in RemoveListener(On(On(reg, cb), cb), cb)
  {
    var r := RemoveListener(On(On(reg, cb), cb), cb);
    assert Count(On(On(reg, cb), cb), cb) == 2;
    assert Count(r, cb) == 1;
    assert cb in multiset(r);
  }
}

=== FILE: hook.dfy ===
/** The decision rule of `useStoreState`: the hook starts from the selector
    applied to the store, and on each `"stateChange"` event applies the
    selector to the one-entry object `{ [prop]: value }`, calling `setState`
    only when the result differs from its local state. */
module Hook {
  import opened Objects
  import opened Emitter
  import opened Proxy

  /** A selector reads properties of the object it is given. */
  type Selector = Target -> Value

  /** `store => store.count`, the selector of the component in the tests. */
  function SelectCount(o: Target): Value
  {
    ReflectGet(o, "count")
  }

  /** `{ [prop]: value }`: an object holding the event's property alone. */
  function EventObject(e: Event): (o: Target)
    ensures ReflectGet(o, e.prop) == e.value
    ensures forall k :: k != e.prop ==> ReflectGet(o, k) == Undefined
  {
    Literal(map[e.prop := e.value])
  }

  /** The initial local state: the selector applied to the store. */
  function InitialState(sel: Selector, w: World, s: Store): Value
    requires Owns(w, s)
  {
    sel(w.heap[s.target])
  }

  /** The selector reads the store through its `get` trap, so the initial
      state of `store => store.count` is what reading `store.count` returns. */
  lemma InitialCountReadsThroughProxy(w: World, s: Store)
    requires Owns(w, s)
    ensures InitialState(SelectCount, w, s) == GetTrap(w, s, "count").reply.value
  {
  }

  /** The hook's local state after one event, and whether `setState` ran. */
  datatype Update = Update(state: Value, setStateCalled: bool)

  /** One event as the source handles it. Whether or not `setState` runs,
      the local state afterwards is the selector's value on the one-entry
      object; `setState` runs exactly when that value differs. */
  function OnEvent(sel: Selector, e: Event, current: Value): (u: Update)
    ensures u.state == sel(EventObject(e))
    ensures u.setStateCalled <==> sel(EventObject(e)) != current
    ensures !u.setStateCalled ==> u.state == current
  {
    var selected := sel(EventObject(e));
    if selected != current then Update(selected, true) else Update(current, false)
  }

  /** The hook's local state after its listener `cb` handles the calls `ds`
      in order, taking the state each call leaves as the next call's current
      state. That is the source's behaviour when React re-renders and
      re-subscribes the listener between any two calls. The last call
      addressed to `cb` decides the state; with none, the state is unchanged. */
  function Handle(sel: Selector, cb: Callback, ds: seq<Delivery<Signal>>, current: Value): (r: Value)
    ensures (forall i :: 0 <= i < |ds| ==> ds[i].listener != cb) ==> r == current
    ensures forall i :: 0 <= i < |ds| && ds[i].listener == cb && LastTo(ds, cb, i) ==>
      r == sel(EventObject(ds[i].payload.event))
    decreases |ds|
  {
    if |ds| == 0 then current
    else
      var next := if ds[0].listener == cb then OnEvent(sel, ds[0].payload.event, current).state else current;
      LastToShift(ds, cb);
      Handle(sel, cb, ds[1..], next)
  }

  /** No call after position `i` is addressed to `cb`. */
  ghost predicate LastTo(ds: seq<Delivery<Signal>>, cb: Callback, i: int)
    requires 0 <= i < |ds|
  {
    forall j :: i < j < |ds| ==> ds[j].listener != cb
  }

  lemma LastToShift(ds: seq<Delivery<Signal>>, cb: Callback)
    requires |ds| > 0
    ensures forall i :: 1 <= i < |ds| ==> (LastTo(ds, cb, i) <==> LastTo(ds[1..], cb, i - 1))
    ensures forall i :: 1 <= i < |ds| ==> ds[1..][i - 1] == ds[i]
    ensures LastTo(ds, cb, 0) <==> forall j :: 0 <= j < |ds[1..]| ==> ds[1..][j].listener != cb
  {
    forall i | 1 <= i < |ds|
      ensures LastTo(ds, cb, i) <==> LastTo(ds[1..], cb, i - 1)
    {
      if LastTo(ds, cb, i) {
        forall j | i - 1 < j < |ds[1..]| ensures ds[1..][j].listener != cb {
          assert ds[1..][j] == ds[j + 1];
        }
      }
      if LastTo(ds[1..], cb, i - 1) {
        forall j | i < j < |ds| ensures ds[j].listener != cb {
          assert ds[j] == ds[1..][j - 1];
        }
      }
    }
    if LastTo(ds, cb, 0) {
      forall j | 0 <= j < |ds[1..]| ensures ds[1..][j].listener != cb {
        assert ds[1..][j] == ds[j + 1];
      }
    }
    if forall j :: 0 <= j < |ds[1..]| ==> ds[1..][j].listener != cb {
      forall j | 0 < j < |ds| ensures ds[j].listener != cb {
        assert ds[j] == ds[1..][j - 1];
      }
    }
  }

  /** Call `i` reaches the listener `cb` with a selection that differs from
      `captured`, so the source's listener calls `setState` on it. */
  ghost predicate Differs(sel: Selector, cb: Callback, ds: seq<Delivery<Signal>>, captured: Value, i: int)
    requires 0 <= i < |ds|
  {
    ds[i].listener == cb && sel(EventObject(ds[i].payload.event)) != captured
  }

  /** Call `i` is the last one that calls `setState`. */
  ghost predicate LastDiffers(sel: Selector, cb: Callback, ds: seq<Delivery<Signal>>, captured: Value, i: int)
    requires 0 <= i < |ds|
  {
    Differs(sel, cb, ds, captured, i) && forall j :: i < j < |ds| ==> !Differs(sel, cb, ds, captured, j)
  }

  lemma DiffersShift(sel: Selector, cb: Callback, ds: seq<Delivery<Signal>>, captured: Value)
    requires |ds| > 0
    ensures forall i :: 1 <= i < |ds| ==>
      (LastDiffers(sel, cb, ds, captured, i) <==> LastDiffers(sel, cb, ds[1..], captured, i - 1))
    ensures LastDiffers(sel, cb, ds, captured, 0) <==>
      Differs(sel, cb, ds, captured, 0) && forall j :: 0 <= j < |ds[1..]| ==> !Differs(sel, cb, ds[1..], captured, j)
    ensures (forall i :: 0 <= i < |ds| ==> !Differs(sel, cb, ds, captured, i)) <==>
      !Differs(sel, cb, ds, captured, 0) && forall j :: 0 <= j < |ds[1..]| ==> !Differs(sel, cb, ds[1..], captured, j)
  {
    forall j | 0 <= j < |ds[1..]|
      ensures Differs(sel, cb, ds[1..], captured, j) <==> Differs(sel, cb, ds, captured, j + 1)
    {
      assert ds[1..][j] == ds[j + 1];
    }
    forall i | 1 <= i < |ds|
      ensures Differs(sel, cb, ds, captured, i) <==> Differs(sel, cb, ds[1..], captured, i - 1)
    {
      assert ds[1..][i - 1] == ds[i];
    }
    forall i | 1 <= i < |ds|
      ensures LastDiffers(sel, cb, ds, captured, i) <==> LastDiffers(sel, cb, ds[1..], captured, i - 1)
    {
      if LastDiffers(sel, cb, ds[1..], captured, i - 1) {
        forall j | i < j < |ds| ensures !Differs(sel, cb, ds, captured, j) {
          assert !Differs(sel, cb, ds[1..], captured, j - 1);
        }
      }
      if LastDiffers(sel, cb, ds, captured, i) {
        forall j | i - 1 < j < |ds[1..]| ensures !Differs(sel, cb, ds[1..], captured, j) {
          assert !Differs(sel, cb, ds, captured, j + 1);
        }
      }
    }
    if forall j :: 0 <= j < |ds[1..]| ==> !Differs(sel, cb, ds[1..], captured, j) {
      forall j | 0 < j < |ds| ensures !Differs(sel, cb, ds, captured, j) {
        assert !Differs(sel, cb, ds[1..], captured, j - 1);
      }
    }
  }

  /** The hook's local state after the listener that `useEffect` subscribed
      while `captured` was the rendered state handles `ds`, with no re-render
      in between: every call compares the selection with `captured`, not
      with what an earlier call of the same batch set, and every call whose
      selection differs runs `setState`. The last such call decides the
      state; with none, the state is unchanged. */
  function HandleCaptured(sel: Selector, cb: Callback, ds: seq<Delivery<Signal>>, captured: Value, state: Value): (r: Value)
    ensures (forall i :: 0 <= i < |ds| ==> !Differs(sel, cb, ds, captured, i)) ==> r == state
    ensures forall i :: 0 <= i < |ds| && LastDiffers(sel, cb, ds, captured, i) ==>
      r == sel(EventObject(ds[i].payload.event))
    ensures r == state || r != captured
    decreases |ds|
  {
    if |ds| == 0 then state
    else
      var selected := sel(EventObject(ds[0].payload.event));
      var next := if ds[0].listener == cb && selected != captured then selected else state;
      DiffersShift(sel, cb, ds, captured);
      HandleCaptured(sel, cb, ds[1..], captured, next)
  }

  /** When every call to the listener selects something other than the
      captured state, comparing with the captured state and comparing with
      the latest state end in the same state: stale comparisons only matter
      for a selection that returns to the captured value. */
  lemma {:induction false} HandleCapturedAgreesWhenAllDiffer(sel: Selector, cb: Callback, ds: seq<Delivery<Signal>>, captured: Value, state: Value)
    requires forall i :: 0 <= i < |ds| && ds[i].listener == cb ==> sel(EventObject(ds[i].payload.event)) != captured
    ensures HandleCaptured(sel, cb, ds, captured, state) == Handle(sel, cb, ds, state)
    decreases |ds|
  {
    if |ds| > 0 {
      var next := if ds[0].listener == cb then sel(EventObject(ds[0].payload.event)) else state;
      assert forall i :: 1 <= i < |ds| ==> ds[1..][i - 1] == ds[i];
      HandleCapturedAgreesWhenAllDiffer(sel, cb, ds[1..], captured, next);
    }
  }

  /** For a single call, comparing with the captured state and comparing
      with the latest state agree, since the two are then the same. */
  lemma HandleCapturedOneCall(sel: Selector, cb: Callback, d: Delivery<Signal>, current: Value)
    ensures HandleCaptured(sel, cb, [d], current, current) == Handle(sel, cb, [d], current)
  {
    assert [d][1..] == [];
  }

  /** Handling an event twice in a row calls `setState` at most once. */
  lemma OnEventSettles(sel: Selector, e: Event, current: Value)
    ensures !OnEvent(sel, e, OnEvent(sel, e, current).state).setStateCalled
  {
  }

  /** Calls addressed to other listeners leave the hook's state alone. */
  lemma {:induction false} HandleIgnoresOthers(sel: Selector, cb: Callback, ds: seq<Delivery<Signal>>, current: Value)
    requires DeliveriesTo(ds, cb) == 0
    ensures Handle(sel, cb, ds, current) == current
    decreases |ds|
  {
    if |ds| > 0 {
      HandleIgnoresOthers(sel, cb, ds[1..], current);
    }
  }

  /** After one write the hook holds the selector's value on that write's
      one-entry object, whatever it held before, provided its listener is
      registered. */
  lemma {:induction false} HandleAfterWrite(sel: Selector, cb: Callback, w: World, s: Store, k: Key, v: Value, current: Value)
    requires Owns(w, s)
    requires cb in w.listeners
    ensures Handle(sel, cb, SetTrap(w, s, k, v).deliveries, current) == sel(EventObject(Event(k, v)))
  {
    var st := SetTrap(w, s, k, v);
    HandleSameEvent(sel, cb, st.deliveries, Event(k, v), current);
  }

  lemma {:induction false} HandleSameEvent(sel: Selector, cb: Callback, ds: seq<Delivery<Signal>>, e: Event, current: Value)
    requires forall i :: 0 <= i < |ds| ==> ds[i].payload.event == e
    requires exists i :: 0 <= i < |ds| && ds[i].listener == cb
    ensures Handle(sel, cb, ds, current) == sel(EventObject(e))
    decreases |ds|
  {
    var next := if ds[0].listener == cb then OnEvent(sel, e, current).state else current;
    if exists i :: 1 <= i < |ds| && ds[i].listener == cb {
      var i :| 1 <= i < |ds| && ds[i].listener == cb;
      assert ds[1..][i - 1].listener == cb;
      HandleSameEvent(sel, cb, ds[1..], e, next);
    } else {
      assert ds[0].listener == cb;
      assert DeliveriesTo(ds[1..], cb) == 0 by {
        NoneAddressed(ds[1..], cb);
      }
      HandleIgnoresOthers(sel, cb, ds[1..], next);
    }
  }

  lemma {:induction false} NoneAddressed(ds: seq<Delivery<Signal>>, cb: Callback)
    requires forall i :: 0 <= i < |ds| ==> ds[i].listener != cb
    ensures DeliveriesTo(ds, cb) == 0
    decreases |ds|
  {
    if |ds| > 0 {
      NoneAddressed(ds[1..], cb);
    }
  }

  /** The component of the tests: a store `{ count: 0 }` renders 0; the
      button's `store.count += 1` reads 0 and writes 1; the hook's listener is
      called once with `{ prop: "count", value: 1 }` and the hook then holds
      1. After the subscription's closure runs, a further write calls no one. */
  lemma CounterScenario(cb: Callback)
    ensures InitialState(SelectCount, Initial, DefaultStore) == Num(0)
    ensures
      var w1 := SubscribeStep(Initial, cb).world;
      var before := GetTrap(w1, DefaultStore, "count").reply.value;
      before == Num(0) &&
      var st := SetTrap(w1, DefaultStore, "count", Num(before.n + 1));
      st.deliveries == [Delivery(cb, Signal(Event("count", Num(1)), st.world.heap))] &&
      Handle(SelectCount, cb, st.deliveries, Num(0)) == Num(1) &&
      var w3 := UnsubscribeStep(st.world, cb).world;
      SetTrap(w3, DefaultStore, "count", Num(2)).deliveries == []
  {
    var w1 := SubscribeStep(Initial, cb).world;
    assert w1.listeners == [cb];
    var before := GetTrap(w1, DefaultStore, "count").reply.value;
    assert before == Num(0);
    var st := SetTrap(w1, DefaultStore, "count", Num(before.n + 1));
    assert st.world.listeners == [cb];
    assert st.deliveries == [Delivery(cb, Signal(Event("count", Num(1)), st.world.heap))];
    assert Handle(SelectCount, cb, st.deliveries, Num(0)) == Num(1) by {
      assert ReflectGet(EventObject(Event("count", Num(1))), "count") == Num(1);
      assert LastTo(st.deliveries, cb, 0);
    }
    var w3 := UnsubscribeStep(st.world, cb).world;
    assert w3.listeners == [] by {
      RemoveUndoesOn([], cb);
    }
    assert SetTrap(w3, DefaultStore, "count", Num(2)).deliveries == [];
  }

  /** Within one batch, `store.count = 1; store.count = 0;` leaves the source's
      hook at 1 while the store holds 0: the second call compares 0 with the
      captured 0 and skips `setState`. With a re-render between the calls, or
      comparing with the latest state as the corrected rule does, it ends at 0. */
  lemma BatchedWritesLeaveStaleState(cb: Callback)
    ensures
      var w1 := SubscribeStep(Initial, cb).world;
      var st1 := SetTrap(w1, DefaultStore, "count", Num(1));
      var st2 := SetTrap(st1.world, DefaultStore, "count", Num(0));
      SelectCount(st2.world.heap[DefaultStore.target]) == Num(0) &&
      HandleCaptured(SelectCount, cb, st1.deliveries + st2.deliveries, Num(0), Num(0)) == Num(1) &&
      Handle(SelectCount, cb, st1.deliveries + st2.deliveries, Num(0)) == Num(0) &&
      HandleFromStore(SelectCount, DefaultStore, cb, st1.deliveries + st2.deliveries, Num(0)) == Num(0)
  {
    var w1 := SubscribeStep(Initial, cb).world;
    assert w1.listeners == [cb];
    var st1 := SetTrap(w1, DefaultStore, "count", Num(1));
    var st2 := SetTrap(st1.world, DefaultStore, "count", Num(0));
    var d1 := Delivery(cb, Signal(Event("count", Num(1)), st1.world.heap));
    var d2 := Delivery(cb, Signal(Event("count", Num(0)), st2.world.heap));
    assert st1.deliveries == [d1];
    assert st2.deliveries == [d2];
    var ds := st1.deliveries + st2.deliveries;
    assert ds == [d1, d2];
    assert ReflectGet(EventObject(Event("count", Num(1))), "count") == Num(1);
    assert ReflectGet(EventObject(Event("count", Num(0))), "count") == Num(0);
    assert ds[1..] == [d2] && [d2][1..] == [];
    assert HandleCaptured(SelectCount, cb, [d2], Num(0), Num(1)) == Num(1);
    assert SelectCount(st2.world.heap[0]) == Num(0);
    assert LastTo(ds, cb, 1);
  }

  /** Because every store shares one emitter, a write of `count` to any
      other store replaces the selection of a hook bound to the module-level
      store, though that store did not change. */
  lemma OtherStoreWriteOverridesSelection(cb: Callback)
    ensures
      var w1 := Apply(SubscribeStep(Initial, cb).world, NewObject(map["count" := Num(0)])).world;
      var st := SetTrap(w1, Store(1), "count", Num(7));
      SelectCount(st.world.heap[DefaultStore.target]) == Num(0) &&
      Handle(SelectCount, cb, st.deliveries, Num(0)) == Num(7)
  {
    var w1 := Apply(SubscribeStep(Initial, cb).world, NewObject(map["count" := Num(0)])).world;
    var st := SetTrap(w1, Store(1), "count", Num(7));
    assert ReflectGet(EventObject(Event("count", Num(7))), "count") == Num(7);
    assert st.deliveries == [Delivery(cb, Signal(Event("count", Num(7)), st.world.heap))];
  }

  /** As written, a write to an unrelated key of the hook's own store sets
      the selection of `store => store.count` to `undefined`, though `count`
      did not change. */
  lemma UnrelatedWriteClearsSelection(cb: Callback)
    ensures
      var w1 := SubscribeStep(Initial, cb).world;
      var st := SetTrap(w1, DefaultStore, "label", Str("x"));
      SelectCount(st.world.heap[DefaultStore.target]) == Num(0) &&
      Handle(SelectCount, cb, st.deliveries, Num(0)) == Undefined
  {
    var w1 := SubscribeStep(Initial, cb).world;
    var st := SetTrap(w1, DefaultStore, "label", Str("x"));
    assert ReflectGet(EventObject(Event("label", Str("x"))), "count") == Undefined;
    assert st.deliveries == [Delivery(cb, Signal(Event("label", Str("x")), st.world.heap))];
  }

  /** The evidently intended rule: re-run the selector on the hook's own
      store as the listener finds it during the call (the write is already
      committed), and call `setState` only when the result differs. A view
      without the store, which a run never produces, changes nothing. */
  function OnEventFromStore(sel: Selector, s: Store, sig: Signal, current: Value): (u: Update)
    ensures s.target < |sig.view| ==> u.state == sel(sig.view[s.target])
    ensures u.setStateCalled ==> u.state != current
    ensures !u.setStateCalled ==> u.state == current
    ensures s.target >= |sig.view| ==> u == Update(current, false)
  {
    if s.target < |sig.view| && sel(sig.view[s.target]) != current then Update(sel(sig.view[s.target]), true)
    else Update(current, false)
  }

  /** The corrected hook's local state after the listener calls `ds`, each
      call comparing with the latest state. The last call addressed to `cb`
      decides the state: the selection on the store as that call sees it. */
  function HandleFromStore(sel: Selector, s: Store, cb: Callback, ds: seq<Delivery<Signal>>, current: Value): (r: Value)
    ensures (forall i :: 0 <= i < |ds| ==> ds[i].listener != cb) ==> r == current
    ensures forall i :: 0 <= i < |ds| && ds[i].listener == cb && LastTo(ds, cb, i) && s.target < |ds[i].payload.view| ==>
      r == sel(ds[i].payload.view[s.target])
    decreases |ds|
  {
    if |ds| == 0 then current
    else
      var next := if ds[0].listener == cb then OnEventFromStore(sel, s, ds[0].payload, current).state else current;
      LastToShift(ds, cb);
      HandleFromStore(sel, s, cb, ds[1..], next)
  }

  lemma {:induction false} HandleFromStoreAppend(sel: Selector, s: Store, cb: Callback, a: seq<Delivery<Signal>>, b: seq<Delivery<Signal>>, current: Value)
    ensures HandleFromStore(sel, s, cb, a + b, current) == HandleFromStore(sel, s, cb, b, HandleFromStore(sel, s, cb, a, current))
    decreases |a|
  {
    if |a| == 0 {
      assert a + b == b;
    } else {
      assert (a + b)[1..] == a[1..] + b;
      var next := if a[0].listener == cb then OnEventFromStore(sel, s, a[0].payload, current).state else current;
      HandleFromStoreAppend(sel, s, cb, a[1..], b, next);
    }
  }

  /** Calls that all carry one view, starting from a state that already
      agrees with it, keep the corrected hook on the store's selection. */
  lemma {:induction false} HandleFromStoreSameView(sel: Selector, s: Store, cb: Callback, ds: seq<Delivery<Signal>>, view: seq<Target>, current: Value)
    requires s.target < |view|
    requires forall i :: 0 <= i < |ds| ==> ds[i].payload.view == view
    requires current == sel(view[s.target]) || exists i :: 0 <= i < |ds| && ds[i].listener == cb
    ensures HandleFromStore(sel, s, cb, ds, current) == sel(view[s.target])
    decreases |ds|
  {
    if |ds| > 0 {
      var next := if ds[0].listener == cb then OnEventFromStore(sel, s, ds[0].payload, current).state else current;
      if ds[0].listener == cb {
        assert next == sel(view[s.target]);
      } else if current != sel(view[s.target]) {
        var i :| 0 <= i < |ds| && ds[i].listener == cb;
        assert ds[1..][i - 1].listener == cb;
      }
      HandleFromStoreSameView(sel, s, cb, ds[1..], view, next);
    }
  }

  /** With the corrected rule, a hook whose listener stays registered holds
      the selector's value on its own store after every operation, whatever
      stores are written and whatever keys change. */
  lemma {:induction false} CorrectedHookTracksStore(sel: Selector, s: Store, cb: Callback, w: World, ops: seq<Op>, current: Value)
    requires ValidRun(w, ops) && Owns(w, s)
    requires cb in w.listeners
    requires forall i :: 0 <= i < |ops| ==> !(ops[i].Unsubscribe? && ops[i].cb == cb)
    requires current == sel(w.heap[s.target])
    ensures Owns(Run(w, ops).0, s)
    ensures HandleFromStore(sel, s, cb, Run(w, ops).1, current) == sel(Run(w, ops).0.heap[s.target])
    decreases |ops|
  {
    if |ops| > 0 {
      var st := Apply(w, ops[0]);
      var after := HandleFromStore(sel, s, cb, st.deliveries, current);
      assert st.world.heap[s.target] == w.heap[s.target] || ops[0].Write?;
      if ops[0].Write? {
        var view := st.world.heap;
        assert st.deliveries == Emit(w.listeners, Signal(Event(ops[0].prop, ops[0].value), view));
        var j :| 0 <= j < |w.listeners| && w.listeners[j] == cb;
        assert st.deliveries[j].listener == cb;
        HandleFromStoreSameView(sel, s, cb, st.deliveries, view, current);
      } else if ops[0].NewObject? {
        assert st.world.heap[..|w.heap|][s.target] == w.heap[s.target];
      }
      assert after == sel(st.world.heap[s.target]);
      assert cb in st.world.listeners by {
        assert Count(w.listeners, cb) > 0;
        assert Count(st.world.listeners, cb) > 0 by {
          match ops[0]
          case Unsubscribe(d) => assert d != cb;
          case _ =>
        }
      }
      assert forall i :: 0 <= i < |ops[1..]| ==> ops[1..][i] == ops[i + 1];
      CorrectedHookTracksStore(sel, s, cb, st.world, ops[1..], after);
      HandleFromStoreAppend(sel, s, cb, st.deliveries, Run(st.world, ops[1..]).1, current);
    }
  }

  /** The corrected rule on the inputs above: an unrelated key, or another
      store's `count`, leaves the selection at 0. */
  lemma CorrectedRuleKeepsSelection(cb: Callback)
    ensures
      var w1 := SubscribeStep(Initial, cb).world;
      var st := SetTrap(w1, DefaultStore, "label", Str("x"));
      HandleFromStore(SelectCount, DefaultStore, cb, st.deliveries, Num(0)) == Num(0)
    ensures
      var w1 := Apply(SubscribeStep(Initial, cb).world, NewObject(map["count" := Num(0)])).world;
      var st := SetTrap(w1, Store(1), "count", Num(7));
      HandleFromStore(SelectCount, DefaultStore, cb, st.deliveries, Num(0)) == Num(0)
  {
    var w1 := SubscribeStep(Initial, cb).world;
    var st := SetTrap(w1, DefaultStore, "label", Str("x"));
    assert st.deliveries == [Delivery(cb, Signal(Event("label", Str("x")), st.world.heap))];
    assert SelectCount(st.world.heap[0]) == Num(0);
    var w2 := Apply(SubscribeStep(Initial, cb).world, NewObject(map["count" := Num(0)])).world;
    var st2 := SetTrap(w2, Store(1), "count", Num(7));
    assert st2.deliveries == [Delivery(cb, Signal(Event("count", Num(7)), st2.world.heap))];
    assert SelectCount(st2.world.heap[0]) == Num(0);
  }
}

=== FILE: objects.dfy ===
/** Plain JavaScript objects as the store sees them: own data properties
    keyed by strings, read with `Reflect.get` and written with `Reflect.set`. */
module Objects {

  /** Property keys. Only string keys are modelled. */
  type Key = string

  /** The values a store holds and a selector returns. Object values
      (functions included) are references and compare by identity, as `!==`
      does. */
  datatype Value = Undefined | Null | Num(n: int) | Str(s: string) | Bool(b: bool) | ObjRef(ref: nat)

  /** A plain, extensible object: its own data properties, and the keys of
      those that are non-writable. */
  datatype Target = Target(props: map<Key, Value>, readOnly: set<Key>)

  /** Only an existing property can be non-writable. */
  predicate WellFormed(t: Target)
  {
    t.readOnly <= t.props.Keys
  }

  /** An object literal such as `{ count: 0 }`: it reads back exactly the
      given properties, and a write to any key succeeds. */
  function Literal(props: map<Key, Value>): (t: Target)
    ensures WellFormed(t)
    ensures forall k :: k in props ==> ReflectGet(t, k) == props[k]
    ensures forall k :: k !in props ==> ReflectGet(t, k) == Undefined
    ensures forall k, v :: ReflectSet(t, k, v).0
  {
    Target(props, {})
  }

  /** `Reflect.get(target, prop)`: the own property, or `undefined` when the
      object has none. */
  function ReflectGet(t: Target, k: Key): (v: Value)
    ensures k in t.props ==> v == t.props[k]
    ensures k !in t.props ==> v == Undefined
  {
    if k in t.props then t.props[k] else Undefined
  }

  /** `Reflect.set(target, prop, value)`: the success flag and the object
      afterwards. A non-writable property makes it fail and leaves the object
      as it was; a missing property is added. */
  function ReflectSet(t: Target, k: Key, v: Value): (r: (bool, Target))
    ensures r.0 <==> k !in t.readOnly
    ensures r.0 ==> ReflectGet(r.1, k) == v
    ensures !r.0 ==> r.1 == t
    ensures forall k' :: k' != k ==> ReflectGet(r.1, k') == ReflectGet(t, k')
    ensures r.1.readOnly == t.readOnly
    ensures WellFormed(t) ==> WellFormed(r.1)
  {
    if k in t.readOnly then (false, t)
    else (true, t.(props := t.props[k := v]))
  }
}

=== FILE: proxy.dfy ===
/** Stores and their shared emitter as one state machine. The heap holds the
    plain objects callers create; a store is a proxy over one of them, so
    `createStore` copies nothing and two stores over the same object alias.
    Every store's `subscribe` registers on the same global listener list, so a
    subscriber hears writes to every store. */
module Proxy {
  import opened Objects
  import opened Emitter

  type Ref = nat

  /** The `store` proxy `createStore` returns: a handle on its target object. */
  datatype Store = Store(target: Ref)

  /** The payload of a `"stateChange"` emit: `{ prop, value }`. */
  datatype Event = Event(prop: Key, value: Value)

  /** What a listener gets on one call: the event, and the heap as the
      listener finds it should it read any store while it runs. */
  datatype Signal = Signal(event: Event, view: seq<Target>)

  datatype World = World(heap: seq<Target>, listeners: seq<Callback>)

  /** The operations callers perform. `NewObject` is an object literal
      written by the caller; `Unsubscribe(cb)` is calling the closure that
      `Subscribe(_, cb)` returned. */
  datatype Op =
    | NewObject(props: map<Key, Value>)
    | CreateStore(init: Ref)
    | Write(store: Store, prop: Key, value: Value)
    | Read(store: Store, prop: Key)
    | Subscribe(via: Store, cb: Callback)
    | Unsubscribe(cb: Callback)

  datatype Reply =
    | Allocated(ref: Ref)
    | Created(store: Store)
    | SetResult(ok: bool)
    | Got(value: Value)
    | Unsubscriber(cb: Callback)
    | Done

  /** The world after an operation, what the caller gets back, and the
      listener calls the operation made, in order. */
  datatype Step = Step(world: World, reply: Reply, deliveries: seq<Delivery<Signal>>)

  predicate Owns(w: World, s: Store)
  {
    s.target < |w.heap|
  }

  /** The module-level store: `createStore({ count: 0 })` on an empty world. */
  const Initial: World := World([Literal(map["count" := Num(0)])], [])
  const DefaultStore: Store := Store(0)

  /** The `set` trap: the write reaches the target first, then exactly one
      `"stateChange"` event `{ prop, value }` goes to every registration,
      whether or not the value changed and whether or not `Reflect.set`
      succeeded; the trap reports success in every case. */
  function SetTrap(w: World, s: Store, k: Key, v: Value): (st: Step)
    requires Owns(w, s)
    ensures st.reply == SetResult(true)
    ensures st.world.listeners == w.listeners
    ensures |st.world.heap| == |w.heap|
    ensures k !in w.heap[s.target].readOnly ==> ReflectGet(st.world.heap[s.target], k) == v
    ensures k in w.heap[s.target].readOnly ==> st.world.heap == w.heap
    ensures forall r, k' :: 0 <= r < |w.heap| && (r != s.target || k' != k) ==>
      ReflectGet(st.world.heap[r], k') == ReflectGet(w.heap[r], k')
    ensures forall r :: 0 <= r < |w.heap| && r != s.target ==> st.world.heap[r] == w.heap[r]
    ensures st.world.heap[s.target].readOnly == w.heap[s.target].readOnly
    ensures WellFormed(w.heap[s.target]) ==> WellFormed(st.world.heap[s.target])
    ensures |st.deliveries| == |w.listeners|
    ensures forall i :: 0 <= i < |st.deliveries| ==>
      st.deliveries[i].listener == w.listeners[i] &&
      st.deliveries[i].payload == Signal(Event(k, v), st.world.heap)
  {
    var (_, t) := ReflectSet(w.heap[s.target], k, v);
    var w' := w.(heap := w.heap[s.target := t]);
    Step(w', SetResult(true), Emit(w'.listeners, Signal(Event(k, v), w'.heap)))
  }

  /** The `get` trap: a plain read of the target. */
  function GetTrap(w: World, s: Store, k: Key): (st: Step)
    requires Owns(w, s)
    ensures st.world == w && st.deliveries == []
    ensures st.reply.Got?
    ensures k in w.heap[s.target].props ==> st.reply.value == w.heap[s.target].props[k]
    ensures k !in w.heap[s.target].props ==> st.reply.value == Undefined
  {
    Step(w, Got(ReflectGet(w.heap[s.target], k)), [])
  }

  /** `subscribe(callback)`: a new registration on the global emitter, with
      no cap on their number and whichever store's `subscribe` was called. */
  function SubscribeStep(w: World, cb: Callback): (st: Step)
    ensures st.world.heap == w.heap && st.deliveries == []
    ensures st.reply == Unsubscriber(cb)
    ensures |st.world.listeners| == |w.listeners| + 1
    ensures st.world.listeners[..|w.listeners|] == w.listeners && st.world.listeners[|w.listeners|] == cb
    ensures Count(st.world.listeners, cb) == Count(w.listeners, cb) + 1
    ensures forall d :: d != cb ==> Count(st.world.listeners, d) == Count(w.listeners, d)
  {
    Step(w.(listeners := On(w.listeners, cb)), Unsubscriber(cb), [])
  }

  /** Calling the closure `subscribe` returned: the most recent
      registration of `cb` goes, every other registration stays in order. */
  function UnsubscribeStep(w: World, cb: Callback): (st: Step)
    ensures st.world.heap == w.heap && st.deliveries == []
    ensures st.reply == Done
    ensures cb !in w.listeners ==> st.world.listeners == w.listeners
    ensures cb in w.listeners ==>
      exists i :: 0 <= i < |w.listeners| && w.listeners[i] == cb && cb !in w.listeners[i + 1..] &&
        st.world.listeners == w.listeners[..i] + w.listeners[i + 1..]
    ensures Count(st.world.listeners, cb) == if cb in w.listeners then Count(w.listeners, cb) - 1 else 0
    ensures forall d :: d != cb ==> Count(st.world.listeners, d) == Count(w.listeners, d)
  {
    Step(w.(listeners := RemoveListener(w.listeners, cb)), Done, [])
  }

  predicate ValidOp(w: World, op: Op)
  {
    match op
    case CreateStore(init) => init < |w.heap|
    case Write(s, _, _) => Owns(w, s)
    case Read(s, _) => Owns(w, s)
    case _ => true
  }

  /** One operation. Only writes call listeners; nothing but an object
      literal grows the heap, and `createStore` changes no state at all. */
  function Apply(w: World, op: Op): (st: Step)
    requires ValidOp(w, op)
    ensures |st.world.heap| >= |w.heap|
    ensures !op.Write? ==> st.deliveries == []
    ensures !op.Write? && !op.NewObject? ==> st.world.heap == w.heap
    ensures op.Write? ==> |st.world.heap| == |w.heap| && st.world.listeners == w.listeners
    ensures op.Read? ==> st.world == w
    ensures op.NewObject? ==> |st.world.heap| == |w.heap| + 1 && st.world.heap[..|w.heap|] == w.heap
    ensures op.NewObject? ==> st.world.listeners == w.listeners && st.reply == Allocated(|w.heap|)
    ensures op.NewObject? ==> st.world.heap[|w.heap|] == Literal(op.props)
    ensures op.CreateStore? ==> st.world == w && st.reply == Created(Store(op.init))
  {
    match op
    case NewObject(props) =>
      Step(w.(heap := w.heap + [Literal(props)]), Allocated(|w.heap|), [])
    case CreateStore(init) => Step(w, Created(Store(init)), [])
    case Write(s, k, v) => SetTrap(w, s, k, v)
    case Read(s, k) => GetTrap(w, s, k)
    case Subscribe(_, cb) => SubscribeStep(w, cb)
    case Unsubscribe(cb) => UnsubscribeStep(w, cb)
  }

  /** Every operation of `ops` is valid in the world its predecessors left. */
  predicate ValidRun(w: World, ops: seq<Op>)
    decreases |ops|
  {
    |ops| == 0 || (ValidOp(w, ops[0]) && ValidRun(Apply(w, ops[0]).world, ops[1..]))
  }

  /** A sequence of operations: the final world and every listener call, in
      the order they happened. */
  function Run(w: World, ops: seq<Op>): (r: (World, seq<Delivery<Signal>>))
    requires ValidRun(w, ops)
    decreases |ops|
  {
    if |ops| == 0 then (w, [])
    else
      var st := Apply(w, ops[0]);
      var rest := Run(st.world, ops[1..]);
      (rest.0, st.deliveries + rest.1)
  }

  /** Read-your-write: reading the written key through any store over the
      same object yields the value, unless the property is non-writable;
      every other key of every object reads as before. */
  lemma ReadAfterWrite(w: World, s: Store, k: Key, v: Value, s2: Store, k2: Key)
    requires Owns(w, s) && Owns(w, s2)
    ensures GetTrap(SetTrap(w, s, k, v).world, s2, k2).reply ==
      Got(if s2.target == s.target && k2 == k && k !in w.heap[s.target].readOnly then v
          else ReflectGet(w.heap[s2.target], k2))
  {
  }

  /** Writing a value equal to the current one still calls every listener. */
  lemma RewriteStillNotifies(w: World, s: Store, k: Key, cb: Callback)
    requires Owns(w, s)
    ensures DeliveriesTo(SetTrap(w, s, k, ReflectGet(w.heap[s.target], k)).deliveries, cb) == Count(w.listeners, cb)
  {
    var v := ReflectGet(w.heap[s.target], k);
    var st := SetTrap(w, s, k, v);
    assert st.deliveries == Emit(w.listeners, Signal(Event(k, v), st.world.heap));
    EmitDeliversOncePerRegistration(w.listeners, Signal(Event(k, v), st.world.heap), cb);
  }

  /** Subscribing through one store's `subscribe` and writing to another
      store calls the callback once per registration it holds. */
  lemma {:induction false} CrossStoreDelivery(w: World, a: Store, b: Store, cb: Callback, k: Key, v: Value)
    requires Owns(w, b)
    ensures var w1 := Apply(w, Subscribe(a, cb)).world;
      DeliveriesTo(SetTrap(w1, b, k, v).deliveries, cb) == Count(w.listeners, cb) + 1
  {
    var w1 := Apply(w, Subscribe(a, cb)).world;
    var st := SetTrap(w1, b, k, v);
    assert st.deliveries == Emit(w1.listeners, Signal(Event(k, v), st.world.heap));
    EmitDeliversOncePerRegistration(w1.listeners, Signal(Event(k, v), st.world.heap), cb);
  }

  /** A callback that is not registered, and that nobody subscribes, is
      never called, whatever the stores go through. */
  lemma {:induction false} SilentWhileUnregistered(w: World, ops: seq<Op>, cb: Callback)
    requires ValidRun(w, ops)
    requires cb !in w.listeners
    requires forall i :: 0 <= i < |ops| ==> !(ops[i].Subscribe? && ops[i].cb == cb)
    ensures DeliveriesTo(Run(w, ops).1, cb) == 0
    decreases |ops|
  {
    if |ops| > 0 {
      var st := Apply(w, ops[0]);
      assert Count(st.world.listeners, cb) == 0 by {
        match ops[0]
        case Write(s, k, v) =>
        case Subscribe(_, d) => assert d != cb;
        case Unsubscribe(d) =>
        case _ =>
      }
      if ops[0].Write? {
        var sig := Signal(Event(ops[0].prop, ops[0].value), st.world.heap);
        assert st.deliveries == Emit(w.listeners, sig);
        EmitDeliversOncePerRegistration(w.listeners, sig, cb);
      }
      assert DeliveriesTo(st.deliveries, cb) == 0;
      assert forall i :: 0 <= i < |ops[1..]| ==> ops[1..][i] == ops[i + 1];
      SilentWhileUnregistered(st.world, ops[1..], cb);
      DeliveriesToAppend(st.deliveries, Run(st.world, ops[1..]).1, cb);
    }
  }

  /** Once the closure of a single subscription is called, later writes to
      any store never call that callback again, and every other
      registration is kept. */
  lemma UnsubscribeStopsDelivery(w: World, cb: Callback, ops: seq<Op>)
    requires Count(w.listeners, cb) == 1
    requires ValidRun(UnsubscribeStep(w, cb).world, ops)
    requires forall i :: 0 <= i < |ops| ==> !(ops[i].Subscribe? && ops[i].cb == cb)
    ensures forall d :: d != cb ==> Count(UnsubscribeStep(w, cb).world.listeners, d) == Count(w.listeners, d)
    ensures DeliveriesTo(Run(UnsubscribeStep(w, cb).world, ops).1, cb) == 0
  {
    var w1 := UnsubscribeStep(w, cb).world;
    assert cb in multiset(w.listeners);
    assert Count(w1.listeners, cb) == 0;
    assert cb !in w1.listeners;
    SilentWhileUnregistered(w1, ops, cb);
  }
}
